=== FILE: README.md ===
# Amplify session assembly over AWSMobileClient, in Dafny

This project models the glue that turns the answers of an `AWSMobileClient`
(the AWS mobile identity SDK) into an Amplify `AWSCognitoAuthSession`: an
`isSignedIn` flag plus four independent success/failure fields (identity id,
AWS credentials, user sub, user-pool tokens).

- `auth_model.dfy` (module `AuthModel`): nullable values, scripted client
  responses (`Ok(v) | OkNull | Err(message)`, where the message itself may be
  null), the JWT "sub" claim oracle (`Sub | JsonErr | OtherErr`), the error
  taxonomy (`SignedOutException`, `InvalidAccountTypeException`,
  `UnknownException`, `SessionExpiredException`, plain `AuthException` with the
  reason it was built), the session, and the trace of client calls.
- `messages.dfy` (module `Messages`): the two fixed message lists, exact list
  membership, and a substring search proved equal to the "occurs somewhere"
  definition.
- `session_adapter.dfy` (module `SessionAdapter`): the signed-out pipeline
  (guest credentials, then identity id) and the signed-in pipeline (tokens,
  then AWS credentials, then identity id), modelled as pure functions that
  follow the methods of `APAMobileClientSessionAdapter`. The fetch functions
  return a `Run`: how the fetch ended (one session handed to the callback,
  or an escaping exception) and the client calls it made, in order.
  `GetStringAuthSessionResult` and `TokenStage` return an `Attempt` (a value
  or a thrown fault); `TokenStage` is the body of `fetchSignedInSession`'s
  try block. The two signed-out constant sessions are plain `Session`s.
- `session_helper.dfy` (module `SessionHelper`): `fetchAuthSession`'s dispatch on
  the user state, the expired session, the id-token extraction of
  `getAuthToken`, the sign-in result converters, and the routing of a
  sign-in's outcome to its two callbacks.
- `adapter_properties.dfy`, `helper_properties.dfy`: lemmas relating the stages
  and pipelines.

The client is an input, not I/O: each call's answer is scripted in a `Client`
value. Every run makes each call at most once, so one answer per call is
enough. Each fetch ends in exactly one `Completion`, by construction, and a
dispatch yields exactly one `Delivery` (success callback or exception
callback).

Details of the Java and Kotlin code that the model keeps:

- The guest-credentials failure is matched by substring
  (`String.contains`). The token and signed-in credentials failures are
  matched by exact list membership. `InvalidAccountOnBothPaths` shows that
  exactly one message passes both tests: "Cognito Identity not configured"
  itself. There are messages that pass only one of them, on each side.
- A null exception message at APAMobileClientSessionAdapter.java:56 makes
  `getMessage().contains(...)` throw inside the catch block. The exception
  escapes `fetchSignedOutSession` (`Escaped(NullDereference)`), including when
  the signed-in path redirects there. `fetchAuthSession` catches it and calls
  the exception callback. On the signed-in path a null message is simply not
  on either list (`List.contains(null)` is false), so it is classified as Unknown.
- `getStringAuthSessionResult` catches only `JSONException`. Any other
  exception from the JWT parser propagates into the catch block of
  `fetchSignedInSession`. There it is classified exactly like a `getTokens`
  failure, and a message on the signed-out list would redirect just the same.
- A null token bundle is dereferenced and throws a `NullPointerException`.
  Its message is on neither list, so both user-pool fields become Unknown.
- The signed-out path does not null-check credentials or the identity id:
  null becomes `Success(None)`. The signed-in path null-checks both.
- An identity-id exception is a plain `AuthException` on the signed-out path
  and an `UnknownException` on the signed-in path.

## Model

| member | source | states |
|---|---|---|
| Messages.Contains | APAMobileClientSessionAdapter.java:56 | The substring test is true exactly when the needle occurs at some index of the message |
| Messages.ClassifyCredentialsFault | APAMobileClientSessionAdapter.java:176-182 | A credentials failure is InvalidAccountType (wrapping it) exactly when its message is on the invalid-account list, and Unknown (wrapping it) otherwise |
| Messages.ListsDisjoint | APAMobileClientSessionAdapter.java:26-35 | No message is on both lists, so the order of the tests at lines 93 and 95 does not matter |
| Messages.InvalidAccountOnBothPaths | APAMobileClientSessionAdapter.java:26-31 | A message passes both the guest-credentials substring test (line 56) and exact invalid-account membership if and only if it is "Cognito Identity not configured" |
| Messages.SubstringWithoutMembership | APAMobileClientSessionAdapter.java:54-60 | A message containing "Cognito Identity not configured" inside a longer text passes the substring test but is on neither list |
| Messages.MembershipWithoutSubstring | APAMobileClientSessionAdapter.java:26-31 | "Tokens are not supported for OAuth2" is on the invalid-account list but does not contain "Cognito Identity not configured" |
| SessionAdapter.SignedOutSessionWithoutIdentityPool | APAMobileClientSessionAdapter.java:269-277 | Not signed in; both AWS fields InvalidAccountType, user sub and tokens SignedOut. Its content is pinned by the ensures of FetchSignedOutSession |
| SessionAdapter.SignedOutSessionWithIdentityPool | APAMobileClientSessionAdapter.java:279-289 | Not signed in; both AWS fields SignedOut with guest access possible, user sub and tokens SignedOut. Its content is pinned by the ensures of FetchSignedOutSession |
| SessionAdapter.FetchSignedOutSessionWithAWSCredentials | APAMobileClientSessionAdapter.java:238-267 | After guest credentials: not signed in, user sub and tokens are SignedOut failures, credentials succeed with exactly the given (possibly null) value, identity id succeeds with the returned (possibly null) id unless the call threw, then a plain AuthException wrapping it |
| SessionAdapter.FetchSignedOutSession | APAMobileClientSessionAdapter.java:39-64 | Calls getAWSCredentials first and getIdentityId only if it did not throw; never signed in; user sub and tokens always SignedOut without guest access; a failure message containing "Cognito Identity not configured" gives InvalidAccountType in both AWS fields, any other message SignedOut with guest access possible; a null message escapes |
| SessionAdapter.GetStringAuthSessionResult | APAMobileClientSessionAdapter.java:110-123 | The user sub is the "sub" claim; a JSON failure gives Unknown; any other parser exception is thrown on |
| SessionAdapter.TokenStage | APAMobileClientSessionAdapter.java:72-84 | The token stage returns exactly when getTokens returned a bundle and reading its access token's payload raises nothing other than a JSONException; the tokens field is then the access, id and refresh strings in that order |
| SessionAdapter.FetchSignedInSessionWithUserPoolAndAWSCredentialResults | APAMobileClientSessionAdapter.java:197-236 | Signed in; credentials, user sub and tokens passed through; identity id succeeds exactly when the call returned non-null, otherwise a plain AuthException (null) or Unknown (exception) |
| SessionAdapter.FetchSignedInSessionWithUserPoolResults | APAMobileClientSessionAdapter.java:141-195 | Signed in; user sub and tokens passed through unchanged; getIdentityId called only after non-null credentials; null credentials or a credentials exception put the same failure in both AWS fields (no-error AuthException, or InvalidAccountType/Unknown by list membership) |
| SessionAdapter.FetchIdentityPoolOnlySignedInSession | APAMobileClientSessionAdapter.java:125-139 | Signed in, user sub and tokens InvalidAccountType failures, and the credentials stage runs next |
| SessionAdapter.FetchSignedInSession | APAMobileClientSessionAdapter.java:66-108 | Calls in pipeline order starting with getTokens; redirects to exactly the signed-out run when the token stage throws a signed-out-list message; otherwise completes signed in; delivered sessions are signed in exactly when not redirected; an invalid-account token failure gives InvalidAccountType user-pool fields |
| AdapterProperties.SignedOutMessageRedirects | APAMobileClientSessionAdapter.java:95-96 | A token failure with a signed-out-list message yields the signed-out pipeline's outcome, after the one getTokens call |
| AdapterProperties.RedirectOnlyOnSignedOutMessage | APAMobileClientSessionAdapter.java:33-35 | A signed-in run delivering a signed-out session saw the token stage throw exactly "getTokens does not support retrieving tokens while signed-out" |
| AdapterProperties.SignedInEscapesOnlyThroughRedirect | APAMobileClientSessionAdapter.java:92-106 | An exception escapes the signed-in pipeline exactly when it redirects and the guest-credentials failure has a null message |
| AdapterProperties.InvalidAccountTokenFailureContinues | APAMobileClientSessionAdapter.java:92-94 | A token-stage failure (from getTokens or the payload reader) with an invalid-account message gives InvalidAccountType user-pool fields; getAWSCredentials is still called, and getIdentityId too exactly when the credentials call returned non-null |
| AdapterProperties.UnrecognisedTokenFailureIsUnknown | APAMobileClientSessionAdapter.java:92-104 | Any token-stage failure whose message is on neither list (a throwing getTokens, the null-bundle dereference, or a non-JSON parser exception) gives Unknown user-pool fields wrapping that fault, and the pipeline continues |
| AdapterProperties.NullTokensAreUnknown | APAMobileClientSessionAdapter.java:72-75 | A null token bundle (dereferenced first at line 116) gives Unknown user-pool fields wrapping the null dereference |
| AdapterProperties.UnlistedParserFailureIsUnknown | APAMobileClientSessionAdapter.java:113-121 | A payload-reader exception other than a JSONException, with an unlisted message, gives Unknown user-pool fields wrapping it |
| AdapterProperties.TokensObtained | APAMobileClientSessionAdapter.java:72-91 | With tokens the session is signed in, the tokens field holds the three strings in order, user sub is the claim or Unknown on a JSON failure |
| AdapterProperties.AllCallsSucceed | APAMobileClientSessionAdapter.java:66-236 | All calls answered: signed in, all four fields successful, calls are getTokens, getAWSCredentials, getIdentityId |
| AdapterProperties.NullCredentialsWithoutError | APAMobileClientSessionAdapter.java:157-171 | Null credentials without an exception: both AWS fields carry the no-error failure and getIdentityId is not called, whatever the token stage gave, unless the token stage redirected to the signed-out path |
| AdapterProperties.SignedInIdentityIdFailureKeepsCredentials | APAMobileClientSessionAdapter.java:203-235 | A null or throwing identity-id call gives a failure while the credentials field stays successful |
| AdapterProperties.IdentityIdFailureDiffersByPath | APAMobileClientSessionAdapter.java:255-265 | The same identity-id exception is a plain AuthException after guest credentials and an UnknownException after signed-in credentials |
| AdapterProperties.SignedOutKeepsNulls | APAMobileClientSessionAdapter.java:243-254 | The signed-out path delivers null credentials and a null identity id as successes |
| AdapterProperties.InvalidAccountTypeOnBothPaths | APAMobileClientSessionAdapter.java:176-182 | For a credentials failure with a message and no redirect, both the signed-out and the signed-in run give an InvalidAccountType credentials field if and only if the message is exactly "Cognito Identity not configured" |
| AdapterProperties.SubstringOnlyMessageDiffers | APAMobileClientSessionAdapter.java:54-60 | A credentials message with "Cognito Identity not configured" inside a longer text is InvalidAccountType on the signed-out path but Unknown on the signed-in path |
| AdapterProperties.MembershipOnlyMessageDiffers | APAMobileClientSessionAdapter.java:176-182 | A credentials failure "Tokens are not supported for OAuth2" is SignedOut with guest access possible on the signed-out path but InvalidAccountType on the signed-in path |
| AdapterProperties.UnlistedSubstringDiffers | APAMobileClientSessionAdapter.java:54-60 | Every credentials message that contains "Cognito Identity not configured" but is not on the invalid-account list is InvalidAccountType on the signed-out path and Unknown wrapping it on the signed-in path |
| AdapterProperties.ListedWithoutSubstringDiffers | APAMobileClientSessionAdapter.java:176-182 | Every invalid-account list message without "Cognito Identity not configured" in it is SignedOut with guest access possible on the signed-out path and InvalidAccountType wrapping it on the signed-in path |
| SessionHelper.FetchAuthSession | APAASessionHelper.kt:161-207 | Calls currentUserState first and the rest in pipeline order; SIGNED_OUT and GUEST give exactly the signed-out run; the two token-invalid states give a signed-in session with all four fields SessionExpired and no further calls; every other state gives exactly the signed-in run; a throwing currentUserState is rejected with a UserDetailsUnavailable AuthException whose cause is that exception, and a null result with one whose cause is the null dereference |
| SessionHelper.ExpiredSession | APAASessionHelper.kt:209-217 | Signed in, all four fields SessionExpired. Its content is pinned by the ensures of FetchAuthSession |
| SessionHelper.GetAuthToken | APAASessionHelper.kt:36-63 | The id token is returned exactly when the state is served by the signed-in pipeline, getTokens returned a bundle and reading its access token's payload raises nothing other than a JSONException; otherwise null |
| SessionHelper.ConvertCodeDeliveryDetails | APAASessionHelper.kt:128-134 | Null details map to null; otherwise destination and attribute name are kept and the medium is looked up |
| SessionHelper.ConvertSignInResult | APAASessionHelper.kt:116-126 | Sign-in is complete exactly when the state is DONE; null parameters become the empty map, present ones are kept; the step lookup's failure is the conversion's failure; details go through ConvertCodeDeliveryDetails |
| HelperProperties.RejectedExactly | APAASessionHelper.kt:167-196 | The exception callback is used exactly when the user state is unreadable or a signed-out pipeline meets a guest-credentials failure with a null message |
| HelperProperties.DeliveredSignedInExactly | APAASessionHelper.kt:171-186 | A delivered session is signed in exactly when the state is not SIGNED_OUT or GUEST and either the tokens are expired or the token stage did not redirect |
| HelperProperties.ExpiredSessionHasNoToken | APAASessionHelper.kt:179-181 | An expired session yields no id token and getTokens is never called |
| HelperProperties.SignedOutStateHasNoToken | APAASessionHelper.kt:172-178 | SIGNED_OUT and GUEST users get no id token and getTokens is never called |
| HelperProperties.NullParametersConvertAsEmpty | APAASessionHelper.kt:122 | A sign-in result with null parameters converts exactly as one with an empty parameter map |
| HelperProperties.CompletionIgnoresStepMapping | APAASessionHelper.kt:118-121 | Whether sign-in is complete is the same under any two step mappings that both succeed |
| SessionHelper.SignIn | APAASessionHelper.kt:94-112 | A throwing or null client sign-in goes to the exception lookup with that fault (null: the dereference in the conversion); a failing step mapping goes to the exception callback as it is; otherwise the success callback receives exactly the converted result |
| HelperProperties.SignInIgnoresTokenAnswer | APAASessionHelper.kt:136-149 | The sign-in outcome is the same whether the follow-up token request succeeds or fails |
| HelperProperties.SignInCompleteExactlyWhenDone | APAASessionHelper.kt:98-103 | A successful sign-in is complete exactly when the client's state is DONE, and carries the client's parameters or an empty map |
| HelperProperties.CodeDetailsPresentExactly | APAASessionHelper.kt:123 | The next step has code-delivery details exactly when the client's result has them |

## Left out

- The `AWSMobileClient` calls themselves (`currentUserState`, `getTokens`, `getAWSCredentials`, `getIdentityId`, `signIn`) are scripted answers. Their behaviour lives in the SDK, which is not part of this model.
- `CognitoJWTParser` payload decoding is the oracle `payloadOf`. JWT and JSON parsing are not part of this model.
- `SignInStateConverter.getAuthSignInStep` and `AuthCodeDeliveryDetails.DeliveryMedium.fromString` are the parameters `stepOf` and `mediumOf`. Their tables are not visible.
- `CognitoAuthExceptionConverter.lookup` (APAASessionHelper.kt:110) maps foreign SDK exceptions to framework exceptions. It is foreign code whose table is not visible.
- `signIn` (APAASessionHelper.kt:81-114) makes one synchronous client call, runs `convertSignInResult`, then `fetchAndSetUserId`, whose asynchronous `getTokens` callback completes on both branches. `SignIn` models this routing; what the client's sign-in call does and how `CognitoAuthExceptionConverter.lookup` translates its exceptions are not modelled, and the moment the asynchronous callback fires is not modelled either. The sign-in metadata taken from `AWSCognitoAuthSignInOptions` (APAASessionHelper.kt:88-90) only reaches the client call and is not modelled.
- `getUserIdFromToken` (APAASessionHelper.kt:151-159) is private and never called.
- The outer `catch (Throwable)` of `fetchAuthSession` (APAASessionHelper.kt:198-205) sees throwables that are not `Exception`s, and exceptions thrown by the exception callback at APAASessionHelper.kt:189. Neither arises in the model: nothing in it raises a non-`Exception` throwable, and callbacks that throw are left out (next line).
- Callbacks that throw are not modelled. An example is `onComplete.accept` throwing inside a try block and re-entering the catch at APAMobileClientSessionAdapter.java:255. That is an effect of foreign code.
- Timber logging, Kotlin casts, Android annotations and the exact diagnostic strings are not modelled. A plain `AuthException` keeps only the reason it was built for and its cause.
- Sign-in states other than `DONE` are collapsed into `Pending(name)`, because the helper tells only `DONE` apart. Null token strings, a null sign-in state and null code-delivery fields are not modelled. Neither are null `Token` objects from `getAccessToken`, `getIdToken` or `getRefreshToken` (APAMobileClientSessionAdapter.java:80-82, 116), nor a null `userState` inside a non-null `currentUserState` result (APAASessionHelper.kt:171).
- The JVM's `NullPointerException` text is modelled as a message on neither list. The real text is never one of the listed SDK messages.
- Each fetch ends in exactly one `Completion`, by construction of the result types. It is not a separate lemma.

=== FILE: adapter_properties.dfy ===
/**
  Properties relating the stages of the session assembler: the single
  redirect from the signed-in to the signed-out pipeline, how token failures
  are sorted, the fixed call order, and the end-to-end scenarios.
 */
module AdapterProperties {
  import opened AuthModel
  import opened Messages
  import opened SessionAdapter

  /** A token call failing with a message exactly on the signed-out list
      yields exactly what the signed-out pipeline yields on the same client. */
  lemma SignedOutMessageRedirects(c: Client)
    requires c.tokens.Err? && InSignedOutList(c.tokens.message)
    ensures FetchSignedInSession(c).outcome == FetchSignedOutSession(c).outcome
    ensures FetchSignedInSession(c).calls == [GetTokens] + FetchSignedOutSession(c).calls
  {
  }

  /** The redirect happens on exactly one message: a signed-in run that
      delivers a signed-out session saw the token stage throw
      "getTokens does not support retrieving tokens while signed-out". */
  lemma RedirectOnlyOnSignedOutMessage(c: Client)
    requires FetchSignedInSession(c).outcome.Completed?
    requires !FetchSignedInSession(c).outcome.session.isSignedIn
    ensures var m := Some("getTokens does not support retrieving tokens while signed-out");
      || (c.tokens.Err? && c.tokens.message == m)
      || (c.tokens.Ok? && c.payloadOf(c.tokens.value.accessToken) == OtherErr(m))
  {
  }

  /** An exception escapes the signed-in pipeline only through the redirect,
      when the guest-credentials failure that follows carries no message. */
  lemma SignedInEscapesOnlyThroughRedirect(c: Client)
    ensures FetchSignedInSession(c).outcome.Escaped? <==> RedirectsToSignedOut(c) && c.credentials == Err(None)
  {
  }

  /** A token call failing with a message exactly on the invalid-account
      list: both user-pool fields are InvalidAccountType failures and the
      credentials stage (and, after credentials, the identity-id stage) still run. */
  lemma InvalidAccountTokenFailureContinues(c: Client)
    requires TokenStage(c).Threw? && InInvalidAccountList(MessageOf(TokenStage(c).fault))
    ensures var r := FetchSignedInSession(c);
      && r.outcome.Completed?
      && r.outcome.session.isSignedIn
      && r.outcome.session.userSub == Failure(InvalidAccountTypeException(None))
      && r.outcome.session.userPoolTokens == Failure(InvalidAccountTypeException(None))
      && r.calls == [GetTokens, GetAWSCredentials] + (if c.credentials.Ok? then [GetIdentityId] else [])
  {
  }

  /** A token stage failing with a message on neither list (or with none),
      whether getTokens threw, returned null or the payload reader threw
      something other than a JSON exception: both user-pool fields are
      Unknown failures wrapping it, and the pipeline goes on. */
  lemma UnrecognisedTokenFailureIsUnknown(c: Client)
    requires TokenStage(c).Threw?
    requires !InInvalidAccountList(MessageOf(TokenStage(c).fault)) && !InSignedOutList(MessageOf(TokenStage(c).fault))
    ensures var r := FetchSignedInSession(c);
      && r.outcome.Completed?
      && r.outcome.session.isSignedIn
      && r.outcome.session.userSub == Failure(UnknownException(TokenStage(c).fault))
      && r.outcome.session.userPoolTokens == Failure(UnknownException(TokenStage(c).fault))
      && r.calls == [GetTokens, GetAWSCredentials] + (if c.credentials.Ok? then [GetIdentityId] else [])
  {
  }

  /** A null token bundle is dereferenced; the NullPointerException is on
      neither list, so both user-pool fields are Unknown failures. */
  lemma NullTokensAreUnknown(c: Client)
    requires c.tokens.OkNull?
    ensures FetchSignedInSession(c).outcome.session.userSub == Failure(UnknownException(NullDereference))
    ensures FetchSignedInSession(c).outcome.session.userPoolTokens == Failure(UnknownException(NullDereference))
  {
    UnrecognisedTokenFailureIsUnknown(c);
  }

  /** A payload reader failing with an unlisted message other than a JSON
      exception is classified like a failing getTokens call. */
  lemma UnlistedParserFailureIsUnknown(c: Client)
    requires c.tokens.Ok? && c.payloadOf(c.tokens.value.accessToken).OtherErr?
    requires var m := c.payloadOf(c.tokens.value.accessToken).message;
      !InInvalidAccountList(m) && !InSignedOutList(m)
    ensures var m := c.payloadOf(c.tokens.value.accessToken).message;
      && FetchSignedInSession(c).outcome.session.userSub == Failure(UnknownException(Raised(m)))
      && FetchSignedInSession(c).outcome.session.userPoolTokens == Failure(UnknownException(Raised(m)))
  {
    UnrecognisedTokenFailureIsUnknown(c);
  }

  /** Tokens obtained: the tokens field is the access, id and refresh token
      strings in that order, and the user sub is the "sub" claim, or an
      Unknown failure when the payload cannot be read as JSON. */
  lemma TokensObtained(c: Client)
    requires c.tokens.Ok? && !c.payloadOf(c.tokens.value.accessToken).OtherErr?
    ensures var r := FetchSignedInSession(c); var t := c.tokens.value;
      && r.outcome.Completed?
      && r.outcome.session.isSignedIn
      && r.outcome.session.userPoolTokens == Success(UserPoolTokens(t.accessToken, t.idToken, t.refreshToken))
      && (c.payloadOf(t.accessToken).Sub? ==> r.outcome.session.userSub == Success(c.payloadOf(t.accessToken).sub))
      && (c.payloadOf(t.accessToken).JsonErr? ==> r.outcome.session.userSub == Failure(UnknownException(JsonException)))
  {
  }

  /** Every call answered: a signed-in session with all four fields successful. */
  lemma AllCallsSucceed(c: Client, t: Tokens, sub: string, cr: Credentials, id: string)
    requires c.tokens == Ok(t) && c.payloadOf(t.accessToken) == Sub(sub)
    requires c.credentials == Ok(cr) && c.identityId == Ok(id)
    ensures FetchSignedInSession(c) == Run(
      Completed(Session(true, Success(Some(id)), Success(Some(cr)), Success(sub),
        Success(UserPoolTokens(t.accessToken, t.idToken, t.refreshToken)))),
      [GetTokens, GetAWSCredentials, GetIdentityId])
  {
  }

  /** Credentials null without an exception: whatever the token stage
      settled, both AWS fields carry the "no error reported" failure and the
      identity id is never asked for. */
  lemma NullCredentialsWithoutError(c: Client)
    requires c.credentials.OkNull? && !RedirectsToSignedOut(c)
    ensures var r := FetchSignedInSession(c);
      && r.outcome.Completed?
      && r.outcome.session.identityId == Failure(AuthException(NoCredentialsNoError, None))
      && r.outcome.session.awsCredentials == Failure(AuthException(NoCredentialsNoError, None))
      && GetIdentityId !in r.calls
  {
  }

  /** Credentials obtained on the signed-in path: a null or failed identity
      id gives a failure while the credentials field stays successful. */
  lemma SignedInIdentityIdFailureKeepsCredentials(c: Client)
    requires c.credentials.Ok? && !RedirectsToSignedOut(c)
    requires !c.identityId.Ok?
    ensures var s := FetchSignedInSession(c).outcome.session;
      && FetchSignedInSession(c).outcome.Completed?
      && s.identityId.Failure?
      && s.awsCredentials == Success(Some(c.credentials.value))
  {
  }

  /** An identity-id exception is reported differently on the two paths:
      a plain AuthException after guest credentials, an UnknownException
      after signed-in credentials. */
  lemma IdentityIdFailureDiffersByPath(c: Client)
    requires c.identityId.Err? && c.credentials.Ok?
    ensures FetchSignedOutSession(c).outcome.session.identityId
      == Failure(AuthException(GuestIdentityIdFailed, Some(Raised(c.identityId.message))))
    ensures !RedirectsToSignedOut(c) ==>
      FetchSignedInSession(c).outcome.session.identityId == Failure(UnknownException(Raised(c.identityId.message)))
  {
  }

  /** The signed-out path does not null-check: null credentials and a null
      identity id are delivered as successes holding null. */
  lemma SignedOutKeepsNulls(c: Client)
    requires c.credentials.OkNull? && c.identityId.OkNull?
    ensures FetchSignedOutSession(c).outcome.session.awsCredentials == Success(None)
    ensures FetchSignedOutSession(c).outcome.session.identityId == Success(None)
  {
  }

  /** A credentials message with "Cognito Identity not configured" inside a
      longer text: the signed-out path reports an invalid account type,
      while the signed-in path reports Unknown, because its test is exact
      membership. */
  lemma SubstringOnlyMessageDiffers(c: Client)
    requires c.credentials == Err(Some("Failed: " + IdentityNotConfigured))
    requires !RedirectsToSignedOut(c)
    ensures FetchSignedOutSession(c).outcome.session.awsCredentials == Failure(InvalidAccountTypeException(None))
    ensures FetchSignedInSession(c).outcome.session.awsCredentials
      == Failure(UnknownException(Raised(c.credentials.message)))
  {
    SubstringWithoutMembership();
    UnlistedSubstringDiffers(c);
  }

  /** Any unlisted credentials message with "Cognito Identity not
      configured" in it is told apart the same way. */
  lemma UnlistedSubstringDiffers(c: Client)
    requires c.credentials.Err? && c.credentials.message.Some?
    requires IsSubstring(IdentityNotConfigured, c.credentials.message.value)
    requires !InInvalidAccountList(c.credentials.message)
    requires !RedirectsToSignedOut(c)
    ensures FetchSignedOutSession(c).outcome.session.awsCredentials == Failure(InvalidAccountTypeException(None))
    ensures FetchSignedInSession(c).outcome.session.awsCredentials
      == Failure(UnknownException(Raised(c.credentials.message)))
  {
  }

  /** A credentials message on the invalid-account list that does not
      contain "Cognito Identity not configured": the signed-out path reports
      that guest access may be possible, while the signed-in path reports an
      invalid account type. */
  lemma MembershipOnlyMessageDiffers(c: Client)
    requires c.credentials == Err(Some("Tokens are not supported for OAuth2"))
    requires !RedirectsToSignedOut(c)
    ensures FetchSignedOutSession(c).outcome.session.awsCredentials == Failure(SignedOutException(GuestAccessPossible))
    ensures FetchSignedInSession(c).outcome.session.awsCredentials
      == Failure(InvalidAccountTypeException(Some(Raised(c.credentials.message))))
  {
    MembershipWithoutSubstring();
    ListedWithoutSubstringDiffers(c);
  }

  /** Any listed credentials message without "Cognito Identity not
      configured" in it is told apart the same way. */
  lemma ListedWithoutSubstringDiffers(c: Client)
    requires c.credentials.Err? && InInvalidAccountList(c.credentials.message)
    requires !IsSubstring(IdentityNotConfigured, c.credentials.message.value)
    requires !RedirectsToSignedOut(c)
    ensures FetchSignedOutSession(c).outcome.session.awsCredentials == Failure(SignedOutException(GuestAccessPossible))
    ensures FetchSignedInSession(c).outcome.session.awsCredentials
      == Failure(InvalidAccountTypeException(Some(Raised(c.credentials.message))))
  {
  }

  /** For every credentials failure with a message, both paths report an
      invalid account type exactly when the message is
      "Cognito Identity not configured" itself. */
  lemma {:induction false} InvalidAccountTypeOnBothPaths(c: Client)
    requires c.credentials.Err? && c.credentials.message.Some?
    requires !RedirectsToSignedOut(c)
    ensures
      (&& FetchSignedOutSession(c).outcome.session.awsCredentials.error.InvalidAccountTypeException?
       && FetchSignedInSession(c).outcome.session.awsCredentials.error.InvalidAccountTypeException?)
      <==> c.credentials.message.value == IdentityNotConfigured
  {
    InvalidAccountOnBothPaths(c.credentials.message.value);
  }
}

=== FILE: auth_model.dfy ===
/**
  The values exchanged between the identity client, the session adapter and
  the session helper: nullable values, scripted client responses, the error
  taxonomy, the five-field auth session and the trace of client calls.
 */
module AuthModel {

  /** A value that may be Java `null`: `None` stands for null. */
  datatype Option<+T> = None | Some(value: T)

  /** An exception message, which Java allows to be null. */
  type Message = Option<string>

  /** One scripted answer of the identity client to one call: a value, a
      null returned without an exception, or an exception with its message. */
  datatype Response<+T> = Ok(value: T) | OkNull | Err(message: Message)
  {
    /** The value handed back when the call did not throw (null for OkNull). */
    function Returned(): (v: Option<T>)
      requires !Err?
      ensures v.Some? <==> Ok?
    {
      if Ok? then Some(value) else None
    }
  }

  /** The AWS credentials object; its contents are never inspected. */
  datatype Credentials = Credentials(accessKeyId: string, secretKey: string)

  /** The token bundle returned by the client's getTokens call. */
  datatype Tokens = Tokens(accessToken: string, idToken: string, refreshToken: string)

  /** Reading the "sub" claim of a token's JWT payload: the claim itself, a
      JSONException (malformed payload or missing claim), or any other
      exception the parser raises. */
  datatype PayloadRead = Sub(sub: string) | JsonErr | OtherErr(message: Message)

  /** The user states of the mobile client. */
  datatype UserState =
    | SignedIn
    | Guest
    | SignedOutFederatedTokensInvalid
    | SignedOutUserPoolsTokensInvalid
    | SignedOut
    | Unknown

  /** The identity client, as the answers it gives to each of its calls.
      Every pipeline run makes each call at most once. */
  datatype Client = Client(
    userState: Response<UserState>,
    tokens: Response<Tokens>,
    credentials: Response<Credentials>,
    identityId: Response<string>,
    payloadOf: string -> PayloadRead)

  /** A client call, as recorded in a trace. */
  datatype Call = CurrentUserState | GetTokens | GetAWSCredentials | GetIdentityId

  /** An exception caught or escaping inside the adapter. */
  datatype Fault =
    | Raised(message: Message)   // thrown by the client or the JWT parser
    | NullDereference            // a null value dereferenced by the adapter itself
    | JsonException              // the JWT payload had no readable "sub" claim

  /** The message a fault reports; a null dereference reports a JVM text that
      matches none of the adapter's message lists, modelled as absent. */
  function MessageOf(f: Fault): Message
  {
    if f.Raised? then f.message else None
  }

  datatype GuestAccess = GuestAccessDisabled | GuestAccessPossible

  /** Why a plain AuthException (not one of its subclasses) was built. */
  datatype Reason =
    | NoCredentialsNoError      // credentials null without an exception
    | NoIdentityIdNoError       // identity id null without an exception
    | GuestIdentityIdFailed     // guest credentials, but the identity id call threw
    | UserDetailsUnavailable    // the user state could not be read

  /** The Amplify error taxonomy used in sessions. */
  datatype AuthError =
    | SignedOutException(guest: GuestAccess)
    | InvalidAccountTypeException(cause: Option<Fault>)
    | UnknownException(wrapped: Fault)
    | SessionExpiredException
    | AuthException(reason: Reason, cause: Option<Fault>)

  /** One field of a session: a value or an error. */
  datatype AuthResult<+T> = Success(value: T) | Failure(error: AuthError)

  datatype UserPoolTokens = UserPoolTokens(accessToken: string, idToken: string, refreshToken: string)

  /** The session handed to the completion callback. */
  datatype Session = Session(
    isSignedIn: bool,
    identityId: AuthResult<Option<string>>,
    awsCredentials: AuthResult<Option<Credentials>>,
    userSub: AuthResult<string>,
    userPoolTokens: AuthResult<UserPoolTokens>)

  /** How a fetch ends: the callback receives a session, or an exception
      escapes the fetch without the callback being invoked. */
  datatype Completion = Completed(session: Session) | Escaped(fault: Fault)

  /** A fetch: how it ended and the client calls it made, in order. */
  datatype Run = Run(outcome: Completion, calls: seq<Call>)

  /** A run preceded by the calls already made before it started. */
  function After(earlier: seq<Call>, r: Run): Run
  {
    Run(r.outcome, earlier + r.calls)
  }

  /** The fixed position of each call in the pipeline. */
  function Rank(c: Call): nat
  {
    match c
    case CurrentUserState => 0
    case GetTokens => 1
    case GetAWSCredentials => 2
    case GetIdentityId => 3
  }

  /** The calls appear in pipeline order, none of them twice. */
  predicate InPipelineOrder(calls: seq<Call>)
  {
    forall i, j :: 0 <= i < j < |calls| ==> Rank(calls[i]) < Rank(calls[j])
  }
}

=== FILE: helper_properties.dfy ===
/**
  Properties of the dispatcher stated over whole clients: when the exception
  callback is used, when a signed-in session is delivered, and what the id
  token extraction yields for an expired session.
 */
module HelperProperties {
  import opened AuthModel
  import opened SessionAdapter
  import opened SessionHelper

  /** The exception callback is used exactly when the user state cannot be
      read, or when a signed-out pipeline meets a guest-credentials failure
      without a message (directly or through the signed-in redirect). */
  lemma RejectedExactly(c: Client)
    ensures FetchAuthSession(c).delivery.Rejected? <==>
      || !c.userState.Ok?
      || (&& c.userState.Ok?
          && !IsExpiredState(c.userState.value)
          && (IsSignedOutState(c.userState.value) || RedirectsToSignedOut(c))
          && c.credentials == Err(None))
  {
  }

  /** A delivered session is signed in exactly when the user state is served
      by the signed-in pipeline (or is expired) and the token stage did not
      redirect to the signed-out pipeline. */
  lemma DeliveredSignedInExactly(c: Client)
    requires FetchAuthSession(c).delivery.Delivered?
    ensures FetchAuthSession(c).delivery.session.isSignedIn <==>
      && c.userState.Ok?
      && !IsSignedOutState(c.userState.value)
      && (IsExpiredState(c.userState.value) || !RedirectsToSignedOut(c))
  {
  }

  /** An expired session yields no id token, whatever the token call would
      have answered, and the token call is never made. */
  lemma ExpiredSessionHasNoToken(c: Client)
    requires c.userState.Ok? && IsExpiredState(c.userState.value)
    ensures GetAuthToken(c).None?
    ensures GetTokens !in FetchAuthSession(c).calls
  {
  }

  /** Signed-out and guest users never get an id token and their tokens are
      never asked for. */
  lemma SignedOutStateHasNoToken(c: Client)
    requires c.userState.Ok? && IsSignedOutState(c.userState.value)
    ensures GetAuthToken(c).None?
    ensures GetTokens !in FetchAuthSession(c).calls
  {
  }

  /** A sign-in result without additional parameters converts exactly as one
      whose parameters are an empty map. */
  lemma NullParametersConvertAsEmpty<Step, Medium>(
    result: SignInResult,
    stepOf: SignInState -> Option<Step>,
    mediumOf: string -> Medium)
    requires result.parameters.None?
    ensures ConvertSignInResult(result, stepOf, mediumOf) ==
      ConvertSignInResult(result.(parameters := Some(map[])), stepOf, mediumOf)
  {
  }

  /** Whether sign-in is complete depends on the client's state alone, not on
      how the framework names the next step. */
  lemma CompletionIgnoresStepMapping<Step, Medium>(
    result: SignInResult,
    stepOf1: SignInState -> Option<Step>,
    stepOf2: SignInState -> Option<Step>,
    mediumOf: string -> Medium)
    requires stepOf1(result.signInState).Some? && stepOf2(result.signInState).Some?
    ensures ConvertSignInResult(result, stepOf1, mediumOf).value.isSignInComplete ==
      ConvertSignInResult(result, stepOf2, mediumOf).value.isSignInComplete
  {
  }

  /** The next step carries the client's code-delivery details exactly when
      the client reported some, whatever the step mapping says. */
  lemma CodeDetailsPresentExactly<Step, Medium>(
    result: SignInResult,
    stepOf: SignInState -> Option<Step>,
    mediumOf: string -> Medium)
    requires stepOf(result.signInState).Some?
    ensures ConvertSignInResult(result, stepOf, mediumOf).value.nextStep.codeDeliveryDetails.Some? <==>
      result.codeDetails.Some?
  {
  }

  /** The outcome of a sign-in does not depend on whether the follow-up
      token request succeeds: its callback completes on both branches. */
  lemma SignInIgnoresTokenAnswer<Step, Medium>(
    answer: Response<SignInResult>,
    tokens1: Response<Tokens>,
    tokens2: Response<Tokens>,
    stepOf: SignInState -> Option<Step>,
    mediumOf: string -> Medium)
    ensures SignIn(answer, tokens1, stepOf, mediumOf) == SignIn(answer, tokens2, stepOf, mediumOf)
  {
  }

  /** A successful sign-in reports completion exactly when the client's
      state is DONE, and carries the client's parameters (or none). */
  lemma SignInCompleteExactlyWhenDone<Step, Medium>(
    answer: Response<SignInResult>,
    tokensAnswer: Response<Tokens>,
    stepOf: SignInState -> Option<Step>,
    mediumOf: string -> Medium)
    requires SignIn(answer, tokensAnswer, stepOf, mediumOf).SignInSucceeded?
    ensures var r := SignIn(answer, tokensAnswer, stepOf, mediumOf).result;
      && (r.isSignInComplete <==> answer.value.signInState == Done)
      && r.nextStep.additionalInfo == (if answer.value.parameters.Some? then answer.value.parameters.value else map[])
  {
  }
}

=== FILE: messages.dfy ===
/**
  The two fixed message lists the adapter sorts client failures with, and the
  two ways it matches against them: a substring test for the guest-credentials
  failure and exact list membership everywhere else.
 */
module Messages {
  import opened AuthModel

  /** Client messages meaning the account has no user pool or no identity pool.
      The two long entries are written as two halves each, so that facts about
      their characters can be proved half by half. */
  const InvalidAccountMessages: seq<string> := [
    "getTokens does not support " + "retrieving tokens for federated sign-in",
    "You must be signed-in with Cognito " + "Userpools to be able to use getTokens",
    "Tokens are not supported for OAuth2",
    "Cognito Identity not configured"
  ]

  /** Client messages meaning nobody is signed in. */
  const SignedOutMessages: seq<string> := [
    "getTokens does not support retrieving tokens while signed-out"
  ]

  /** The text looked for in a failed guest-credentials call. */
  const IdentityNotConfigured: string := "Cognito Identity not configured"

  /** `needle` occurs in `hay` starting at index `i`. */
  predicate OccursAt(needle: string, hay: string, i: int)
  {
    0 <= i && i + |needle| <= |hay| && hay[i..i + |needle|] == needle
  }

  /** `needle` occurs somewhere in `hay` (Java's String.contains). */
  ghost predicate IsSubstring(needle: string, hay: string)
  {
    exists i :: OccursAt(needle, hay, i)
  }

  /** Substring search by scanning the start positions left to right. */
  function Contains(hay: string, needle: string): (r: bool)
    ensures r <==> IsSubstring(needle, hay)
    decreases |hay|
  {
    if |needle| > |hay| then
      assert forall i :: !OccursAt(needle, hay, i);
      false
    else if hay[..|needle|] == needle then
      assert OccursAt(needle, hay, 0);
      true
    else
      var rest := Contains(hay[1..], needle);
      ShiftOccurrence(needle, hay);
      rest
  }

  /** An occurrence in `hay` not at index 0 is an occurrence in `hay[1..]`,
      and every occurrence in `hay[1..]` is one in `hay`. */
  lemma ShiftOccurrence(needle: string, hay: string)
    requires |hay| >= 1 && |needle| <= |hay|
    requires hay[..|needle|] != needle
    ensures IsSubstring(needle, hay) <==> IsSubstring(needle, hay[1..])
  {
    if IsSubstring(needle, hay) {
      var i :| OccursAt(needle, hay, i);
      assert i != 0;
      assert hay[1..][i - 1..i - 1 + |needle|] == hay[i..i + |needle|];
      assert OccursAt(needle, hay[1..], i - 1);
    }
    if IsSubstring(needle, hay[1..]) {
      var j :| OccursAt(needle, hay[1..], j);
      assert hay[1..][j..j + |needle|] == hay[j + 1..j + 1 + |needle|];
      assert OccursAt(needle, hay, j + 1);
    }
  }

  /** Exact membership in the invalid-account list; a null message is never
      a member (List.contains(null) is false for these lists). */
  predicate InInvalidAccountList(m: Message)
  {
    m.Some? && m.value in InvalidAccountMessages
  }

  /** Exact membership in the signed-out list; a null message is never a member. */
  predicate InSignedOutList(m: Message)
  {
    m.Some? && m.value in SignedOutMessages
  }

  /** The signed-in classification of a failure message: InvalidAccountType
      when it is exactly on the invalid-account list, Unknown otherwise. */
  function ClassifyCredentialsFault(f: Fault): (e: AuthError)
    ensures e.InvalidAccountTypeException? <==> InInvalidAccountList(MessageOf(f))
    ensures e.InvalidAccountTypeException? ==> e.cause == Some(f)
    ensures e.UnknownException? <==> !InInvalidAccountList(MessageOf(f))
    ensures e.UnknownException? ==> e.wrapped == f
  {
    if InInvalidAccountList(MessageOf(f)) then InvalidAccountTypeException(Some(f))
    else UnknownException(f)
  }

  /** No message is on both lists, so the order of the two membership tests
      in the token stage does not matter. */
  lemma ListsDisjoint(m: Message)
    ensures !(InInvalidAccountList(m) && InSignedOutList(m))
  {
  }

  /** A needle with a character that never appears in `hay` does not occur in it. */
  lemma NoOccurrenceWithoutChar(needle: string, hay: string, j: int)
    requires 0 <= j < |needle| && needle[j] !in hay
    ensures !IsSubstring(needle, hay)
  {
  }

  // No capital 'I' in the invalid-account entries other than
  // "Cognito Identity not configured", searched half by half.

  lemma FederatedHalvesWithoutCapitalI()
    ensures 'I' !in "getTokens does not support " && 'I' !in "retrieving tokens for federated sign-in"
  {
  }

  lemma UserPoolsHalvesWithoutCapitalI()
    ensures 'I' !in "You must be signed-in with Cognito " && 'I' !in "Userpools to be able to use getTokens"
  {
  }

  lemma NoCapitalIInOtherEntries()
    ensures 'I' !in InvalidAccountMessages[0]
    ensures 'I' !in InvalidAccountMessages[1]
    ensures 'I' !in InvalidAccountMessages[2]
  {
    FederatedHalvesWithoutCapitalI();
    UserPoolsHalvesWithoutCapitalI();
  }

  /** "Cognito Identity not configured" occurs in no invalid-account entry
      other than itself, since its ninth character, 'I', is in none of them. */
  lemma OnlyOneEntryContainsNotConfigured(m: string)
    requires m in InvalidAccountMessages && m != IdentityNotConfigured
    ensures !IsSubstring(IdentityNotConfigured, m)
  {
    NoCapitalIInOtherEntries();
    assert m == InvalidAccountMessages[0] || m == InvalidAccountMessages[1] || m == InvalidAccountMessages[2];
    NoOccurrenceWithoutChar(IdentityNotConfigured, m, 8);
  }

  /** Exactly one message passes both tests: a message passes the
      guest-credentials substring test and exact invalid-account membership
      if and only if it is "Cognito Identity not configured" itself. */
  lemma {:induction false} InvalidAccountOnBothPaths(m: string)
    ensures (IsSubstring(IdentityNotConfigured, m) && InInvalidAccountList(Some(m))) <==> m == IdentityNotConfigured
  {
    if m == IdentityNotConfigured {
      assert OccursAt(IdentityNotConfigured, m, 0);
    } else if InInvalidAccountList(Some(m)) {
      OnlyOneEntryContainsNotConfigured(m);
    }
  }

  /** A message that passes the substring test but is on neither list. */
  lemma SubstringWithoutMembership()
    ensures var m := "Failed: " + IdentityNotConfigured;
      && IsSubstring(IdentityNotConfigured, m)
      && !InInvalidAccountList(Some(m))
      && !InSignedOutList(Some(m))
  {
    var prefix := "Failed: ";
    var m := prefix + IdentityNotConfigured;
    assert |prefix| == 8;
    assert m[8..8 + |IdentityNotConfigured|] == IdentityNotConfigured;
    assert OccursAt(IdentityNotConfigured, m, 8);
  }

  /** A message on the invalid-account list that fails the substring test. */
  lemma MembershipWithoutSubstring()
    ensures var m := "Tokens are not supported for OAuth2";
      && InInvalidAccountList(Some(m))
      && !IsSubstring(IdentityNotConfigured, m)
  {
    OnlyOneEntryContainsNotConfigured("Tokens are not supported for OAuth2");
  }
}

=== FILE: session_adapter.dfy ===
/**
  The session assembler: the signed-out pipeline (guest credentials, then the
  identity id) and the signed-in pipeline (tokens, then AWS credentials, then
  the identity id), each a pure function from the scripted client to the run
  it makes. A run either hands exactly one session to the completion callback
  or lets an exception escape.
 */
module SessionAdapter {
  import opened AuthModel
  import opened Messages

  /** The user-sub and user-pool-tokens fields settled by the token stage. */
  datatype UserPoolResults = UserPoolResults(userSub: AuthResult<string>, tokens: AuthResult<UserPoolTokens>)

  /** A computation that returns a value or throws. */
  datatype Attempt<+T> = Returned(value: T) | Threw(fault: Fault)

  /** The two fields every signed-out session carries. */
  predicate SignedOutUserPoolFields(s: Session)
  {
    && s.userSub == Failure(SignedOutException(GuestAccessDisabled))
    && s.userPoolTokens == Failure(SignedOutException(GuestAccessDisabled))
  }

  /** The signed-out session when the account has no identity pool. */
  function SignedOutSessionWithoutIdentityPool(): Session
  {
    Session(
      false,
      Failure(InvalidAccountTypeException(None)),
      Failure(InvalidAccountTypeException(None)),
      Failure(SignedOutException(GuestAccessDisabled)),
      Failure(SignedOutException(GuestAccessDisabled)))
  }

  /** The signed-out session when guest access may exist but guest
      credentials could not be had. */
  function SignedOutSessionWithIdentityPool(): Session
  {
    Session(
      false,
      Failure(SignedOutException(GuestAccessPossible)),
      Failure(SignedOutException(GuestAccessPossible)),
      Failure(SignedOutException(GuestAccessDisabled)),
      Failure(SignedOutException(GuestAccessDisabled)))
  }

  /** Guest credentials were obtained (possibly null): ask for the identity id.
      Neither value is null-checked on this path. */
  function FetchSignedOutSessionWithAWSCredentials(credentials: Option<Credentials>, c: Client): (r: Run)
    ensures r.calls == [GetIdentityId]
    ensures r.outcome.Completed?
    ensures var s := r.outcome.session;
      && !s.isSignedIn
      && SignedOutUserPoolFields(s)
      && s.awsCredentials == Success(credentials)
      && (s.identityId.Success? <==> !c.identityId.Err?)
      && (s.identityId.Success? ==> s.identityId.value == c.identityId.Returned())
      && (s.identityId.Failure? ==>
            s.identityId.error == AuthException(GuestIdentityIdFailed, Some(Raised(c.identityId.message))))
  {
    var identityId :=
      if c.identityId.Err? then
        Failure(AuthException(GuestIdentityIdFailed, Some(Raised(c.identityId.message))))
      else
        Success(c.identityId.Returned());
    Run(
      Completed(Session(
        false,
        identityId,
        Success(credentials),
        Failure(SignedOutException(GuestAccessDisabled)),
        Failure(SignedOutException(GuestAccessDisabled)))),
      [GetIdentityId])
  }

  /** The signed-out pipeline. A guest-credentials failure is sorted by a
      substring test; a null failure message makes that test itself throw,
      and the exception escapes. */
  function FetchSignedOutSession(c: Client): (r: Run)
    ensures |r.calls| >= 1 && r.calls[0] == GetAWSCredentials
    ensures InPipelineOrder(r.calls)
    ensures GetIdentityId in r.calls <==> !c.credentials.Err?
    ensures r.outcome.Escaped? <==> c.credentials == Err(None)
    ensures r.outcome.Escaped? ==> r.outcome.fault == NullDereference
    ensures r.outcome.Completed? ==> !r.outcome.session.isSignedIn && SignedOutUserPoolFields(r.outcome.session)
    ensures c.credentials.Err? && c.credentials.message.Some? ==>
      var e := if IsSubstring(IdentityNotConfigured, c.credentials.message.value)
               then InvalidAccountTypeException(None)
               else SignedOutException(GuestAccessPossible);
      && r.outcome.Completed?
      && r.outcome.session.identityId == Failure(e)
      && r.outcome.session.awsCredentials == Failure(e)
    ensures !c.credentials.Err? ==>
      && r.outcome.Completed?
      && r.outcome.session.awsCredentials == Success(c.credentials.Returned())
  {
    match c.credentials
    case Err(message) =>
      if message.None? then
        Run(Escaped(NullDereference), [GetAWSCredentials])
      else if Contains(message.value, IdentityNotConfigured) then
        Run(Completed(SignedOutSessionWithoutIdentityPool()), [GetAWSCredentials])
      else
        Run(Completed(SignedOutSessionWithIdentityPool()), [GetAWSCredentials])
    case _ =>
      After([GetAWSCredentials], FetchSignedOutSessionWithAWSCredentials(c.credentials.Returned(), c))
  }

  /** Reads the "sub" claim of the access token. Only a JSONException is
      caught here; any other parser exception propagates to the caller. */
  function GetStringAuthSessionResult(t: Tokens, payloadOf: string -> PayloadRead): (r: Attempt<AuthResult<string>>)
    ensures r.Threw? <==> payloadOf(t.accessToken).OtherErr?
    ensures r.Threw? ==> r.fault == Raised(payloadOf(t.accessToken).message)
    ensures r.Returned? ==> (r.value.Success? <==> payloadOf(t.accessToken).Sub?)
    ensures r.Returned? && r.value.Success? ==> r.value.value == payloadOf(t.accessToken).sub
    ensures r.Returned? && r.value.Failure? ==> r.value.error == UnknownException(JsonException)
  {
    match payloadOf(t.accessToken)
    case Sub(sub) => Returned(Success(sub))
    case JsonErr => Returned(Failure(UnknownException(JsonException)))
    case OtherErr(message) => Threw(Raised(message))
  }

  /** The body of the token stage's try block: getTokens, the "sub" claim of
      its access token, and the three token strings. A null token bundle is
      dereferenced and throws. */
  function TokenStage(c: Client): (r: Attempt<UserPoolResults>)
    ensures r.Returned? <==> c.tokens.Ok? && !c.payloadOf(c.tokens.value.accessToken).OtherErr?
    ensures r.Returned? ==>
      var t := c.tokens.value;
      && r.value.tokens == Success(UserPoolTokens(t.accessToken, t.idToken, t.refreshToken))
      && (r.value.userSub.Success? <==> c.payloadOf(t.accessToken).Sub?)
      && (r.value.userSub.Success? ==> r.value.userSub.value == c.payloadOf(t.accessToken).sub)
      && (r.value.userSub.Failure? ==> r.value.userSub.error.UnknownException?)
    ensures c.tokens.Err? ==> r == Threw(Raised(c.tokens.message))
    ensures c.tokens.OkNull? ==> r == Threw(NullDereference)
  {
    match c.tokens
    case Err(message) => Threw(Raised(message))
    case OkNull => Threw(NullDereference)
    case Ok(t) =>
      match GetStringAuthSessionResult(t, c.payloadOf)
      case Threw(f) => Threw(f)
      case Returned(userSub) =>
        Returned(UserPoolResults(userSub, Success(UserPoolTokens(t.accessToken, t.idToken, t.refreshToken))))
  }

  /** The last signed-in stage: ask for the identity id, null-checked. */
  function FetchSignedInSessionWithUserPoolAndAWSCredentialResults(
    awsCredentials: AuthResult<Option<Credentials>>,
    userSub: AuthResult<string>,
    tokens: AuthResult<UserPoolTokens>,
    c: Client): (r: Run)
    ensures r.calls == [GetIdentityId]
    ensures r.outcome.Completed?
    ensures var s := r.outcome.session;
      && s.isSignedIn
      && s.awsCredentials == awsCredentials
      && s.userSub == userSub
      && s.userPoolTokens == tokens
      && (s.identityId.Success? <==> c.identityId.Ok?)
      && (s.identityId.Success? ==> s.identityId.value == Some(c.identityId.value))
      && (c.identityId.OkNull? ==> s.identityId == Failure(AuthException(NoIdentityIdNoError, None)))
      && (c.identityId.Err? ==> s.identityId == Failure(UnknownException(Raised(c.identityId.message))))
  {
    var identityId :=
      match c.identityId
      case Ok(id) => Success(Some(id))
      case OkNull => Failure(AuthException(NoIdentityIdNoError, None))
      case Err(message) => Failure(UnknownException(Raised(message)));
    Run(Completed(Session(true, identityId, awsCredentials, userSub, tokens)), [GetIdentityId])
  }

  /** The credentials stage of the signed-in pipeline, entered with the two
      user-pool fields already settled. A null or failed credentials call
      ends the pipeline with the same error in both AWS fields. */
  function FetchSignedInSessionWithUserPoolResults(
    userSub: AuthResult<string>,
    tokens: AuthResult<UserPoolTokens>,
    c: Client): (r: Run)
    ensures r.calls == if c.credentials.Ok? then [GetAWSCredentials, GetIdentityId] else [GetAWSCredentials]
    ensures r.outcome.Completed?
    ensures var s := r.outcome.session;
      && s.isSignedIn
      && s.userSub == userSub
      && s.userPoolTokens == tokens
      && (s.awsCredentials.Success? <==> c.credentials.Ok?)
      && (c.credentials.Ok? ==> s.awsCredentials.value == Some(c.credentials.value))
      && (!c.credentials.Ok? ==> s.identityId.Failure? && s.awsCredentials.Failure? && s.identityId.error == s.awsCredentials.error)
      && (c.credentials.OkNull? ==> s.awsCredentials == Failure(AuthException(NoCredentialsNoError, None)))
      && (c.credentials.Err? ==>
            s.awsCredentials.error == ClassifyCredentialsFault(Raised(c.credentials.message)))
  {
    match c.credentials
    case Ok(credentials) =>
      After([GetAWSCredentials],
        FetchSignedInSessionWithUserPoolAndAWSCredentialResults(Success(Some(credentials)), userSub, tokens, c))
    case OkNull =>
      var error := AuthException(NoCredentialsNoError, None);
      Run(Completed(Session(true, Failure(error), Failure(error), userSub, tokens)), [GetAWSCredentials])
    case Err(message) =>
      var error := ClassifyCredentialsFault(Raised(message));
      Run(Completed(Session(true, Failure(error), Failure(error), userSub, tokens)), [GetAWSCredentials])
  }

  /** The token call named an account without a user pool: both user-pool
      fields fail with InvalidAccountType, and the AWS stages still run. */
  function FetchIdentityPoolOnlySignedInSession(c: Client): (r: Run)
    ensures |r.calls| >= 1 && r.calls[0] == GetAWSCredentials
    ensures r.outcome.Completed?
    ensures r.outcome.session.isSignedIn
    ensures r.outcome.session.userSub == Failure(InvalidAccountTypeException(None))
    ensures r.outcome.session.userPoolTokens == Failure(InvalidAccountTypeException(None))
  {
    FetchSignedInSessionWithUserPoolResults(
      Failure(InvalidAccountTypeException(None)),
      Failure(InvalidAccountTypeException(None)),
      c)
  }

  /** The token stage threw, with a message that `accepts` holds of. */
  predicate TokenStageFailsWith(c: Client, accepts: Message -> bool)
  {
    || (c.tokens.Err? && accepts(c.tokens.message))
    || (c.tokens.Ok? && c.payloadOf(c.tokens.value.accessToken).OtherErr?
        && accepts(c.payloadOf(c.tokens.value.accessToken).message))
  }

  /** The one cross-transition: the token stage threw a message exactly on
      the signed-out list. */
  predicate RedirectsToSignedOut(c: Client)
  {
    TokenStageFailsWith(c, InSignedOutList)
  }

  /** The signed-in pipeline. */
  function FetchSignedInSession(c: Client): (r: Run)
    ensures |r.calls| >= 1 && r.calls[0] == GetTokens
    ensures InPipelineOrder(r.calls)
    ensures GetIdentityId in r.calls ==> !c.credentials.Err?
    ensures RedirectsToSignedOut(c) ==> r == After([GetTokens], FetchSignedOutSession(c))
    ensures !RedirectsToSignedOut(c) ==> r.outcome.Completed? && r.outcome.session.isSignedIn
    ensures r.outcome.Completed? ==> (r.outcome.session.isSignedIn <==> !RedirectsToSignedOut(c))
    ensures TokenStageFailsWith(c, InInvalidAccountList) ==>
      && r.outcome.Completed?
      && r.outcome.session.userSub == Failure(InvalidAccountTypeException(None))
      && r.outcome.session.userPoolTokens == Failure(InvalidAccountTypeException(None))
  {
    match TokenStage(c)
    case Returned(results) =>
      After([GetTokens], FetchSignedInSessionWithUserPoolResults(results.userSub, results.tokens, c))
    case Threw(f) =>
      if InInvalidAccountList(MessageOf(f)) then
        After([GetTokens], FetchIdentityPoolOnlySignedInSession(c))
      else if InSignedOutList(MessageOf(f)) then
        After([GetTokens], FetchSignedOutSession(c))
      else
        After([GetTokens], FetchSignedInSessionWithUserPoolResults(
          Failure(UnknownException(f)), Failure(UnknownException(f)), c))
  }
}

=== FILE: session_helper.dfy ===
/**
  The dispatcher on top of the session assembler: it reads the client's user
  state and picks the signed-out pipeline, the expired session or the
  signed-in pipeline; it extracts the id token from the resulting session;
  and it converts the client's sign-in result into the framework's.
 */
module SessionHelper {
  import opened AuthModel
  import opened SessionAdapter

  /** Which of the two callbacks of a session fetch is invoked, with what. */
  datatype Delivery = Delivered(session: Session) | Rejected(error: AuthError)

  /** A session fetch: the one callback invocation and the client calls made. */
  datatype Fetched = Fetched(delivery: Delivery, calls: seq<Call>)

  /** States served by the signed-out pipeline. */
  predicate IsSignedOutState(u: UserState)
  {
    u == SignedOut || u == Guest
  }

  /** States whose tokens are known to be invalid. */
  predicate IsExpiredState(u: UserState)
  {
    u == SignedOutFederatedTokensInvalid || u == SignedOutUserPoolsTokensInvalid
  }

  /** The session of a user whose tokens are no longer valid. */
  function ExpiredSession(): Session
  {
    Session(
      true,
      Failure(SessionExpiredException),
      Failure(SessionExpiredException),
      Failure(SessionExpiredException),
      Failure(SessionExpiredException))
  }

  /** The exception handed to the exception callback when reading the user
      state, or a pipeline it started, threw. */
  function UserDetailsError(f: Fault): AuthError
  {
    AuthException(UserDetailsUnavailable, Some(f))
  }

  /** A pipeline run, started after the user-state call: a session goes to
      the success callback, an escaping exception to the exception callback. */
  function Deliver(r: Run): Fetched
  {
    match r.outcome
    case Completed(s) => Fetched(Delivered(s), [CurrentUserState] + r.calls)
    case Escaped(f) => Fetched(Rejected(UserDetailsError(f)), [CurrentUserState] + r.calls)
  }

  /** Dispatches on the user state. Reading a null state dereferences null. */
  function FetchAuthSession(c: Client): (r: Fetched)
    ensures |r.calls| >= 1 && r.calls[0] == CurrentUserState
    ensures InPipelineOrder(r.calls)
    ensures r.delivery.Rejected? ==> r.delivery.error.AuthException? && r.delivery.error.reason == UserDetailsUnavailable
    ensures !c.userState.Ok? ==> r.delivery.Rejected? && r.calls == [CurrentUserState]
    ensures c.userState.Err? ==>
      r.delivery == Rejected(AuthException(UserDetailsUnavailable, Some(Raised(c.userState.message))))
    ensures c.userState.OkNull? ==>
      r.delivery == Rejected(AuthException(UserDetailsUnavailable, Some(NullDereference)))
    ensures c.userState.Ok? && IsSignedOutState(c.userState.value) ==> r == Deliver(FetchSignedOutSession(c))
    ensures c.userState.Ok? && IsExpiredState(c.userState.value) ==>
      && r.calls == [CurrentUserState]
      && r.delivery.Delivered?
      && r.delivery.session.isSignedIn
      && r.delivery.session.identityId == Failure(SessionExpiredException)
      && r.delivery.session.awsCredentials == Failure(SessionExpiredException)
      && r.delivery.session.userSub == Failure(SessionExpiredException)
      && r.delivery.session.userPoolTokens == Failure(SessionExpiredException)
    ensures c.userState.Ok? && !IsSignedOutState(c.userState.value) && !IsExpiredState(c.userState.value) ==>
      r == Deliver(FetchSignedInSession(c))
  {
    match c.userState
    case Err(message) => Fetched(Rejected(UserDetailsError(Raised(message))), [CurrentUserState])
    case OkNull => Fetched(Rejected(UserDetailsError(NullDereference)), [CurrentUserState])
    case Ok(u) =>
      if IsSignedOutState(u) then
        Deliver(FetchSignedOutSession(c))
      else if IsExpiredState(u) then
        Fetched(Delivered(ExpiredSession()), [CurrentUserState])
      else
        Deliver(FetchSignedInSession(c))
  }

  /** When the client will yield an id token, stated on the client alone: a
      state served by the signed-in pipeline, a token bundle, and an access
      token whose payload reading raises nothing other than a JSON exception
      (which the user-sub lookup catches). */
  predicate TokenAvailable(c: Client)
  {
    && c.userState.Ok?
    && !IsSignedOutState(c.userState.value)
    && !IsExpiredState(c.userState.value)
    && c.tokens.Ok?
    && !c.payloadOf(c.tokens.value.accessToken).OtherErr?
  }

  /** The id token of the current session when it is signed in and its
      user-pool tokens were obtained; null otherwise. */
  function GetAuthToken(c: Client): (t: Option<string>)
    ensures t == if TokenAvailable(c) then Some(c.tokens.value.idToken) else None
  {
    match FetchAuthSession(c).delivery
    case Delivered(s) =>
      if s.isSignedIn && s.userPoolTokens.Success? then Some(s.userPoolTokens.value.idToken) else None
    case Rejected(_) => None
  }

  /** The client's sign-in states; only DONE is told apart by the helper. */
  datatype SignInState = Done | Pending(name: string)

  datatype UserCodeDeliveryDetails = UserCodeDeliveryDetails(destination: string, deliveryMedium: string, attributeName: string)

  /** The client's sign-in result; parameters and code details may be null. */
  datatype SignInResult = SignInResult(
    signInState: SignInState,
    parameters: Option<map<string, string>>,
    codeDetails: Option<UserCodeDeliveryDetails>)

  datatype AuthCodeDeliveryDetails<Medium> = AuthCodeDeliveryDetails(destination: string, deliveryMedium: Medium, attributeName: string)

  datatype AuthNextSignInStep<Step, Medium> = AuthNextSignInStep(
    signInStep: Step,
    additionalInfo: map<string, string>,
    codeDeliveryDetails: Option<AuthCodeDeliveryDetails<Medium>>)

  datatype AuthSignInResult<Step, Medium> = AuthSignInResult(isSignInComplete: bool, nextStep: AuthNextSignInStep<Step, Medium>)

  /** Converts code-delivery details; the medium name is looked up with the
      framework's own mapping, given here as `mediumOf`. */
  function ConvertCodeDeliveryDetails<Medium>(details: Option<UserCodeDeliveryDetails>, mediumOf: string -> Medium)
    : (r: Option<AuthCodeDeliveryDetails<Medium>>)
    ensures r.None? <==> details.None?
    ensures r.Some? ==>
      && r.value.destination == details.value.destination
      && r.value.deliveryMedium == mediumOf(details.value.deliveryMedium)
      && r.value.attributeName == details.value.attributeName
  {
    if details.Some? then
      Some(AuthCodeDeliveryDetails(details.value.destination, mediumOf(details.value.deliveryMedium), details.value.attributeName))
    else
      None
  }

  /** Converts a sign-in result. The framework's step mapping is given as
      `stepOf`, which yields None where that mapping throws; the conversion
      then throws too (None). */
  function ConvertSignInResult<Step, Medium>(
    result: SignInResult,
    stepOf: SignInState -> Option<Step>,
    mediumOf: string -> Medium): (r: Option<AuthSignInResult<Step, Medium>>)
    ensures r.None? <==> stepOf(result.signInState).None?
    ensures r.Some? ==> (r.value.isSignInComplete <==> result.signInState == Done)
    ensures r.Some? ==> r.value.nextStep.signInStep == stepOf(result.signInState).value
    ensures r.Some? && result.parameters.None? ==> r.value.nextStep.additionalInfo == map[]
    ensures r.Some? && result.parameters.Some? ==> r.value.nextStep.additionalInfo == result.parameters.value
    ensures r.Some? ==> r.value.nextStep.codeDeliveryDetails == ConvertCodeDeliveryDetails(result.codeDetails, mediumOf)
  {
    match stepOf(result.signInState)
    case None => None
    case Some(step) =>
      Some(AuthSignInResult(
        result.signInState == Done,
        AuthNextSignInStep(
          step,
          if result.parameters.None? then map[] else result.parameters.value,
          ConvertCodeDeliveryDetails(result.codeDetails, mediumOf))))
  }

  /** Which callback of a sign-in is invoked, with what. A failure of the
      client's own sign-in call, or any other exception that is not an
      AuthException, goes through the framework's exception lookup, which is
      not modelled: `LookedUp` keeps only the fault handed to it. */
  datatype SignInDelivery<Step, Medium> =
    | SignInSucceeded(result: AuthSignInResult<Step, Medium>)
    | StepMappingFailed
    | LookedUp(fault: Fault)

  /** Signs in with one synchronous client call answered by `answer`,
      converts the result, and then asks for the tokens asynchronously; the
      token callback (`tokensAnswer`) completes the sign-in on both of its
      branches. The step mapping throws an AuthException where `stepOf`
      yields None, which goes to the exception callback as it is. A null
      client result is dereferenced by the conversion; that exception is
      not an AuthException and reaches the lookup. */
  function SignIn<Step, Medium>(
    answer: Response<SignInResult>,
    tokensAnswer: Response<Tokens>,
    stepOf: SignInState -> Option<Step>,
    mediumOf: string -> Medium): (r: SignInDelivery<Step, Medium>)
    ensures r.LookedUp? <==> !answer.Ok?
    ensures answer.Err? ==> r == LookedUp(Raised(answer.message))
    ensures answer.OkNull? ==> r == LookedUp(NullDereference)
    ensures r.StepMappingFailed? <==> answer.Ok? && stepOf(answer.value.signInState).None?
    ensures r.SignInSucceeded? <==> answer.Ok? && stepOf(answer.value.signInState).Some?
    ensures r.SignInSucceeded? ==> Some(r.result) == ConvertSignInResult(answer.value, stepOf, mediumOf)
  {
    match answer
    case Err(message) => LookedUp(Raised(message))
    case OkNull => LookedUp(NullDereference)
    case Ok(result) =>
      match ConvertSignInResult(result, stepOf, mediumOf)
      case None => StepMappingFailed
      case Some(converted) =>
        // Both branches of the token callback deliver the converted result.
        match tokensAnswer
        case Ok(_) => SignInSucceeded(converted)
        case _ => SignInSucceeded(converted)
  }
}
